=== FILE: README.md ===
# Mock hierarchical server-side datasource, in Dafny

This project models the datasource that `src/App.js` hands to its tree-data
grid. `getRows` answers a request for the row window `[startRow, endRow)` of a
preloaded array of test suites. It fails at once when there is no data. When
there is data, it answers from a 200 ms timer: `successCallback(rows,
data.length)` when the window holds rows, `failCallback()` when it is empty.
Then, for every returned row, `recursivelyPopulateHierarchy` pushes the row's
`testcases` to the grid with `applyServerSideRowData({route,
successParams: {rowData, rowCount}})`, one timer later. It does the same for each test case that has
`testcases` of its own, one timer deeper each time.

The grid is treated as an abstract sink. A call of `getRows` is the pure
function `Datasource.GetRows`. It returns a `Reply`: an `Outcome`
(`ImmediateFail`, `DelayedFail` or `Success(rows, rowCount)`) and the list of
`Push(route, rows, rowCount, level)` events it causes, listed in the
pre-order of the recursion (a node, its descendants, then its next sibling).
Timers are represented by their nesting `level`:
- an immediate failure is level 0;
- the response is level 1;
- the pushes for the window's rows are level 2;
- each level down the tree adds 1.

Modules:
- `Wrappers` (`wrappers.dfy`): `Option`, used for JavaScript `undefined`.
- `Tree` (`tree.dfy`): the `Node` record (`test_suite`, `test_case_name`,
  `testcases`). It also defines a reference pre-order traversal (`Preorder`)
  and the list of child arrays of a node list (`Payloads`).
- `JsArray` (`slice.dfy`): `Array.prototype.slice` from ECMA-262. It has a
  closed form (`Slice`) and the standard's step-by-step copy loop
  (`SliceSteps`), which is proved equal to the closed form.
- `Hierarchy` (`hierarchy.dfy`): `recursivelyPopulateHierarchy` (`Populate`)
  and its `forEach` over children (`PopulateEach`). It also proves two
  characterisations. First, the pushes carry the child arrays of the
  tree's nodes, in pre-order. Second, each child with `testcases` is pushed
  later, one level deeper, under its parent's route extended by its
  `test_case_name`.
- `EventLoop` (`eventloop.dfy`): the order in which the pushes actually fire.
  `recursivelyPopulateHierarchy` only sets a timer, and the push and the
  recursion into the children run inside that timer's callback. Timers with
  equal delays fire first-in first-out, so `Fire` runs a queue of pending
  timers. It is proved to fire the pushes in level order, and to fire
  exactly the pushes of the recursion's list, as a permutation.
- `Datasource` (`datasource.dfy`): `getRows` and the request-level properties.

Modelling decisions:
- `if (node.testcases)` is a truthiness test. `Testcases = Absent | Present(nodes)`
  keeps it: an empty array is `Present([])` and still gives a push with
  `rowCount` 0.
- Route keys are `Option<string>`. A row without `test_suite` or
  `test_case_name` puts `undefined` (`None`) into the route, as the source does.
- `data.slice(startRow, endRow)` follows the ECMA-262 clamping, including
  negative indices. `startRow` and `endRow` may be `undefined` (`None`). An
  `undefined` start reads as 0 and an `undefined` end as the length, so a
  request with neither bound returns the whole dataset. The window
  properties are stated for non-negative or `undefined` bounds.
- Top-level routes use `test_suite` (`src/App.js:87`); deeper routes use
  `test_case_name` (`src/App.js:107`). `Hierarchy.KeyField` selects between
  the two.

Timing of the answers:
- An empty window is reported by `failCallback()` from the same 200 ms timer
  as a success (`src/App.js:78-83`).
- Only a missing or empty dataset fails synchronously (`src/App.js:62-65`).

## Model

| member | source | states |
|---|---|---|
| JsArray.Slice | src/App.js:70 | the slice has the resolved length and the elements from the resolved start. With both bounds `undefined` it is the whole array. For a non-negative window it holds at most `endRow - startRow` rows and is empty exactly when `startRow >= length` or `endRow <= startRow` |
| JsArray.SliceSteps | src/App.js:70 | the element-by-element copy loop of ECMA-262's `slice` gives the same array as the closed form |
| JsArray.WindowClamp | src/App.js:68-70 | for non-negative `startRow` and `endRow` the rows are `data[min(startRow, n) .. max(min(startRow, n), min(endRow, n))]` |
| Hierarchy.Populate | src/App.js:94-111 | a node pushes nothing when `testcases` is absent. Otherwise its first push is its own, at its route, carrying its children. Every push lies under the route, its level grows by one per route entry, and its `rowCount` is the length of its rows |
| Hierarchy.PopulateEach | src/App.js:106-108 | every push for a list of siblings lies under the route extended by one sibling's key, at one level per entry past the callback's level |
| Hierarchy.PopulatePayloads | src/App.js:95-108 | the pushes' rows are, in order, the `testcases` arrays of the subtree's nodes that have one, in pre-order. So each such node gives exactly one push, with exactly its direct children, and other nodes give none |
| Hierarchy.PopulateEachPayloads | src/App.js:86-88 | the same for a list of trees: the pushes carry the child arrays of the pre-order of the whole list |
| Hierarchy.OwnPushScheduled | src/App.js:86-88 | within the pushes for a list of siblings, each sibling with `testcases` has its own push at route plus its key |
| Hierarchy.PopulateChildrenFollow | src/App.js:97-108 | every child with `testcases` of every pushed batch is pushed later in the recursion's list, one level deeper, under the parent's route plus the child's `test_case_name` |
| Hierarchy.PopulateEachChildrenFollow | src/App.js:106-108 | the same ordering holds for the pushes of a list of siblings |
| Datasource.Window | src/App.js:70 | `data.slice(startRow, endRow)` on a dataset that is there: at most `data.length` rows |
| Datasource.GetRows | src/App.js:57-92 | a missing or empty dataset fails immediately and pushes nothing. Otherwise the request succeeds exactly when the window is non-empty, with those rows and the dataset's full length; an empty window fails after the delay and pushes nothing. Every push fires after the response, at level `depth + 1`, with route length `depth`, and its route starts at the `test_suite` of a row in the window |
| Datasource.WindowOutcome | src/App.js:68-83 | for non-negative or `undefined` bounds, an `undefined` start read as 0 and an `undefined` end as the length: success exactly when `startRow < length` and `startRow < endRow`, with the clamped rows, at most `endRow - startRow` of them. Otherwise (including `startRow == endRow`) a delayed failure |
| Datasource.WindowRowsPushed | src/App.js:86-88 | each window row with `testcases` is pushed at route `[test_suite]`, at the level after the response |
| Datasource.PushesFromWindow | src/App.js:86-88 | the pushes are exactly the child arrays of the nodes with `testcases` among the window's rows and their descendants, one each, in pre-order. Rows outside the window push nothing |
| Datasource.ChildPushesFollow | src/App.js:86-108 | in every reply's list, a child's push comes after its parent's, at a strictly greater level, with the route extended by its `test_case_name` |
| EventLoop.Schedule | src/App.js:94-97 | the `forEach` over siblings sets no more timers than there are siblings, all at the same level, covering no more nodes than the siblings hold |
| EventLoop.ScheduleCovers | src/App.js:94-108 | for every sibling whose `testcases` is present, the `forEach` sets a timer carrying that array at the route extended by the sibling's key, and it sets no timer that is not one of these |
| EventLoop.ScheduleRows | src/App.js:94-108 | the `forEach` sets exactly one timer per sibling whose `testcases` is present, in sibling order: the k-th timer carries the k-th such array, at the parent's route extended by one key |
| EventLoop.Fire | src/App.js:97-109 | firing a queue of timers in first-in first-out order, where each callback appends its children's timers one level later, makes pushes whose levels never decrease, provided the queue is in level order and spans at most two adjacent levels, as every queue `getRows` sets up is |
| EventLoop.SchedulePending | src/App.js:94-109 | the timers set for a list of siblings lead to exactly the pushes the recursion lists for them |
| EventLoop.FireIsPermutation | src/App.js:94-109 | the pushes fired from a queue are a permutation of the pushes the recursion lists for it |
| Datasource.FiringOrder | src/App.js:78-109 | the pushes of one request, in firing order, come level by level and are a permutation of `GetRows`'s pushes |
| Datasource.TwoSuitesRecursion | src/App.js:86-108 | with suites A (holding A1, whose `testcases` is empty) and B, the recursion lists A, then A1, then B |
| Datasource.TwoSuitesFiring | src/App.js:78-109 | for the same two suites, the timers fire A and B at level 2 before A1 at level 3 |
| Datasource.SingleSuite | src/App.js:55-111 | one suite "A" with one test case "A1", asked for rows 0 to 1: success with one row and total 1, then one push at route `["A"]` carrying "A1", with `rowCount` 1 |

## Left out

- The React component, its hooks, column definitions and styling (`src/App.js:17-44`, `113-127`): configuration with no logic.
- Module registration and the grid library's API (`src/App.js:11-15`, `51`, `116-124`): a closed third-party widget. Its callbacks appear only as the `Outcome` and the `Push` events of a `Reply`.
- The `fetch` of the remote JSON and its parsing (`src/App.js:47-52`): network I/O. The dataset is a parameter of `GetRows`.
- Wall-clock time of the `setTimeout` callbacks (`src/App.js:78`, `97`): only the nesting level and the first-in first-out order of equal-delay timers are kept. Interleaving with the timers of other `getRows` calls is not modelled.
- Datasource.FiringOrder: is characterised as level-sorted and a permutation of the recursion's list. It is not proved equal to the stable sort of that list by level.
- `console.log` and `console.error` (`src/App.js:58`, `63`): diagnostics only.
- Non-array `data` and non-array truthy `testcases` values: a real dataset holds arrays there. For `data` that is an object without a `slice` method, the call `data.slice` at `src/App.js:70` throws synchronously, before any timer is set. For a `testcases` that is such an object, the push at `src/App.js:98-104` still happens, with `rowCount` undefined, and then `forEach` at `src/App.js:106` throws inside the timer.
- `null` or `undefined` elements of `data` or of a `testcases` array: a `Tree.Node` is always an object, so the model has no such elements. In the source, reading `test_suite` of such a row (`src/App.js:87`) throws a `TypeError` inside the response timer, after `successCallback` has run. The `forEach` then stops, and later rows of the window get no pushes. Reading `test_case_name` of such a child (`src/App.js:107`) throws the same way, after its parent's push, and the later siblings get no timers.
- A `null` `test_suite` or `test_case_name`: `Tree.Key` is `Option<string>`, so `None` stands for a missing key and for a `null` one alike. The source would put `null` in the route in one case and `undefined` in the other.
- Non-integer `startRow`/`endRow` (fractions, strings, infinities): `slice`'s conversion of such values is not modelled. Integers and `undefined` are.
- Display properties of rows, such as `status`: they are passed through unread.
- `createRoot(...).render` (`src/App.js:132-133`): DOM start-up.

=== FILE: datasource.dfy ===
/**
 The mock server-side datasource: `getRows` answers a grid's request for the
 row window `[startRow, endRow)` of a preloaded dataset, then pushes the
 children of every returned row, and of their descendants, route by route.

 The grid is an abstract sink: its `successCallback`, `failCallback` and
 `applyServerSideRowData` calls are the `Outcome` and the `Push` list of a
 `Reply`.
 */
module Datasource {
  import opened Wrappers
  import opened Tree
  import opened JsArray
  import opened Hierarchy
  import opened EventLoop

  /** The part of the grid's request the datasource reads. Either bound
      may be `undefined` (`None`), which `slice` reads as the start or the
      end of the dataset. */
  datatype Request = Request(startRow: Option<int>, endRow: Option<int>)

  /** How `getRows` answers: `failCallback()` before any timer,
      `failCallback()` from the response timer, or
      `successCallback(rows, rowCount)` from the response timer. */
  datatype Outcome = ImmediateFail | DelayedFail | Success(rows: seq<Node>, rowCount: nat)

  datatype Reply = Reply(outcome: Outcome, pushes: seq<Push>)

  /** The response is sent from inside one 200 ms timer. */
  const ResponseLevel: nat := 1

  /** The timer level at which an outcome is reported: an immediate failure
      is synchronous. */
  function OutcomeLevel(o: Outcome): (l: nat)
    ensures l <= ResponseLevel
    ensures l == 0 <==> o.ImmediateFail?
  {
    if o.ImmediateFail? then 0 else ResponseLevel
  }

  /** `!data || data.length === 0`: the dataset is missing or empty. */
  predicate NoData(data: Option<seq<Node>>)
  {
    data.None? || |data.value| == 0
  }

  /** The rows a request selects from a dataset that is there. */
  function Window(data: Option<seq<Node>>, req: Request): (rows: seq<Node>)
    requires !NoData(data)
    ensures |rows| <= |data.value|
  {
    Slice(data.value, req.startRow, req.endRow)
  }

  /** `getRows` for one request against `data`. */
  function GetRows(data: Option<seq<Node>>, req: Request): (r: Reply)
    // a missing or empty dataset fails at once and nothing else happens
    ensures r.outcome.ImmediateFail? <==> NoData(data)
    ensures NoData(data) ==> r.pushes == []
    // otherwise success exactly when the window holds rows, with the total
    // size of the dataset as row count; an empty window pushes nothing
    ensures !NoData(data) ==>
      var rows := Window(data, req);
      && (r.outcome.Success? <==> rows != [])
      && (r.outcome.Success? ==> r.outcome.rows == rows && r.outcome.rowCount == |data.value|)
      && (rows == [] ==> r.outcome.DelayedFail? && r.pushes == [])
    // every push comes after the response, one level per route entry, and
    // its route starts at the `test_suite` of a row of the window
    ensures forall p :: p in r.pushes ==>
      && OutcomeLevel(r.outcome) < p.level
      && 1 <= |p.route|
      && p.level == |p.route| + ResponseLevel
      && p.rowCount == |p.rows|
    ensures !NoData(data) ==> forall p :: p in r.pushes ==>
      exists k :: 0 <= k < |Window(data, req)| && p.route[0] == Window(data, req)[k].testSuite
  {
    if NoData(data) then Reply(ImmediateFail, [])
    else
      var rows := Window(data, req);
      var outcome := if |rows| > 0 then Success(rows, |data.value|) else DelayedFail;
      Reply(outcome, PopulateEach([], rows, TestSuite, ResponseLevel + 1))
  }

  /** For non-negative or `undefined` bounds over a dataset that is there,
      reading an `undefined` start as 0 and an `undefined` end as the length
      `n`: success exactly when the window starts inside the dataset and is
      not empty, with the rows `data[min(startRow, n) .. min(endRow, n)]`,
      at most `endRow - startRow` of them; a delayed failure otherwise, and
      in particular whenever `startRow == endRow`. */
  lemma WindowOutcome(data: Option<seq<Node>>, req: Request)
    requires !NoData(data)
    requires req.startRow.None? || 0 <= req.startRow.value
    requires req.endRow.None? || 0 <= req.endRow.value
    ensures var d, r := data.value, GetRows(data, req).outcome;
            var st := if req.startRow.Some? then req.startRow.value else 0;
            var en := if req.endRow.Some? then req.endRow.value else |d|;
            var lo := if st < |d| then st else |d|;
            var hi := if en < |d| then en else |d|;
            && (r.Success? <==> st < |d| && st < en)
            && (r.Success? ==> r.rows == d[lo..hi] && |r.rows| <= en - st)
            && (r.DelayedFail? <==> |d| <= st || en <= st)
  {
  }

  /** Every row of the window whose `testcases` is present is pushed at
      route `[test_suite]`, one level after the response. */
  lemma WindowRowsPushed(data: Option<seq<Node>>, req: Request, k: nat)
    requires !NoData(data) && k < |Window(data, req)|
    requires Window(data, req)[k].testcases.Present?
    ensures var n, ps := Window(data, req)[k], GetRows(data, req).pushes;
            exists j :: 0 <= j < |ps| && ps[j] == Push([n.testSuite], n.testcases.nodes, |n.testcases.nodes|, ResponseLevel + 1)
  {
    OwnPushScheduled([], Window(data, req), TestSuite, ResponseLevel + 1, k);
  }

  /** The pushes carry exactly the child arrays of the nodes, within the
      window's rows and their descendants, whose `testcases` is present, one
      each, in depth-first pre-order; rows outside the window push nothing. */
  lemma PushesFromWindow(data: Option<seq<Node>>, req: Request)
    requires !NoData(data)
    ensures Rows(GetRows(data, req).pushes) == Payloads(PreorderAll(Window(data, req)))
  {
    PopulateEachPayloads([], Window(data, req), TestSuite, ResponseLevel + 1);
  }

  /** Each child with `testcases` of every pushed batch is pushed later, one
      timer level deeper, with its `test_case_name` appended to the route. */
  lemma ChildPushesFollow(data: Option<seq<Node>>, req: Request)
    ensures ChildrenFollow(GetRows(data, req).pushes)
  {
    if !NoData(data) {
      PopulateEachChildrenFollow([], Window(data, req), TestSuite, ResponseLevel + 1);
    }
  }

  /** One suite "A" holding one test case "A1" with no `testcases`; the
      request for rows 0 to 1 succeeds with that suite and a total of 1, and
      the suite's test cases are pushed at route ["A"] one level later. */
  lemma SingleSuite()
    ensures var a1 := Node(None, Some("A1"), Absent);
            var a := Node(Some("A"), None, Present([a1]));
            GetRows(Some([a]), Request(Some(0), Some(1)))
            == Reply(Success([a], 1), [Push([Some("A")], [a1], 1, 2)])
  {
  }

  /** The pushes of one request in the order their timers fire: level by
      level, and the same pushes as `GetRows` lists in the pre-order of the
      recursion. */
  function FiringOrder(data: Option<seq<Node>>, req: Request): (ps: seq<Push>)
    ensures LevelSorted(ps)
    ensures multiset(ps) == multiset(GetRows(data, req).pushes)
  {
    if NoData(data) then []
    else
      var q := Schedule([], Window(data, req), TestSuite, ResponseLevel + 1);
      assert Staged(q) by {
        forall i, j | 0 <= i < j < |q| ensures q[i].level <= q[j].level <= q[i].level + 1 {
          assert q[i] in q && q[j] in q;
        }
      }
      FireIsPermutation(q);
      SchedulePending([], Window(data, req), TestSuite, ResponseLevel + 1);
      Fire(q)
  }

  /** Two suites, the first holding one test case with an empty `testcases`
      array, as rows 0 to 2. */
  function TwoSuites(): (d: seq<Node>)
    ensures |d| == 2
  {
    var a1 := Node(None, Some("A1"), Present([]));
    [Node(Some("A"), None, Present([a1])), Node(Some("B"), None, Present([]))]
  }

  /** The recursion lists suite A, then its test case, then suite B. */
  lemma TwoSuitesRecursion()
    ensures GetRows(Some(TwoSuites()), Request(Some(0), Some(2))).pushes
            == [Push([Some("A")], TwoSuites()[0].testcases.nodes, 1, 2),
                Push([Some("A"), Some("A1")], [], 0, 3),
                Push([Some("B")], [], 0, 2)]
  {
    assert Window(Some(TwoSuites()), Request(Some(0), Some(2))) == TwoSuites();
    TwoSuitesPopulate();
  }

  lemma TwoSuitesPopulate()
    ensures PopulateEach([], TwoSuites(), TestSuite, 2)
            == [Push([Some("A")], TwoSuites()[0].testcases.nodes, 1, 2),
                Push([Some("A"), Some("A1")], [], 0, 3),
                Push([Some("B")], [], 0, 2)]
  {
    var a, b := TwoSuites()[0], TwoSuites()[1];
    var a1 := a.testcases.nodes[0];
    assert TwoSuites() == [a, b];
    assert [a1][1..] == [] && [b][1..] == [] && [a, b][1..] == [b];
    assert [] + [KeyOf(a, TestSuite)] == [Some("A")] && [] + [KeyOf(b, TestSuite)] == [Some("B")];
    assert [Some("A")] + [KeyOf(a1, TestCaseName)] == [Some("A"), Some("A1")];
    assert PopulateEach([Some("A")], [a1], TestCaseName, 3) == [Push([Some("A"), Some("A1")], [], 0, 3)];
    assert PopulateEach([], [b], TestSuite, 2) == [Push([Some("B")], [], 0, 2)];
  }

  /** The timers fire both suites at level 2 before the test case at
      level 3. */
  lemma TwoSuitesFiring()
    ensures FiringOrder(Some(TwoSuites()), Request(Some(0), Some(2)))
            == [Push([Some("A")], TwoSuites()[0].testcases.nodes, 1, 2),
                Push([Some("B")], [], 0, 2),
                Push([Some("A"), Some("A1")], [], 0, 3)]
  {
    assert Window(Some(TwoSuites()), Request(Some(0), Some(2))) == TwoSuites();
    TwoSuitesFire();
  }

  lemma TwoSuitesFire()
    ensures Fire(Schedule([], TwoSuites(), TestSuite, 2))
            == [Push([Some("A")], TwoSuites()[0].testcases.nodes, 1, 2),
                Push([Some("B")], [], 0, 2),
                Push([Some("A"), Some("A1")], [], 0, 3)]
  {
    var a1 := TwoSuites()[0].testcases.nodes[0];
    var ta, tb, ta1 := Timer([Some("A")], [a1], 2), Timer([Some("B")], [], 2), Timer([Some("A"), Some("A1")], [], 3);
    TwoSuitesTimers();
    assert Next([ta, tb]) == [tb, ta1] by {
      assert [ta, tb][1..] == [tb];
    }
    assert Next([tb, ta1]) == [ta1] by {
      assert [tb, ta1][1..] == [ta1];
      assert Schedule([Some("B")], [], TestCaseName, 3) == [];
    }
    assert Next([ta1]) == [] by {
      assert [ta1][1..] == [];
      assert Schedule([Some("A"), Some("A1")], [], TestCaseName, 4) == [];
    }
    FireStep([ta1]);
    FireStep([tb, ta1]);
    FireStep([ta, tb]);
  }

  /** The timers the two suites set: one per suite at level 2, and one for
      the test case at level 3 when suite A's timer fires. */
  lemma TwoSuitesTimers()
    ensures var a1 := TwoSuites()[0].testcases.nodes[0];
            && Schedule([], TwoSuites(), TestSuite, 2)
               == [Timer([Some("A")], [a1], 2), Timer([Some("B")], [], 2)]
            && Schedule([Some("A")], [a1], TestCaseName, 3)
               == [Timer([Some("A"), Some("A1")], [], 3)]
  {
    var a, b := TwoSuites()[0], TwoSuites()[1];
    var a1 := a.testcases.nodes[0];
    assert TwoSuites() == [a, b];
    assert [a1][1..] == [] && [b][1..] == [] && [a, b][1..] == [b];
    assert [] + [KeyOf(a, TestSuite)] == [Some("A")] && [] + [KeyOf(b, TestSuite)] == [Some("B")];
    assert [Some("A")] + [KeyOf(a1, TestCaseName)] == [Some("A"), Some("A1")];
    assert Schedule([], [b], TestSuite, 2) == [Timer([Some("B")], [], 2)];
  }
}

=== FILE: eventloop.dfy ===
/**
 The order in which the pushes of `recursivelyPopulateHierarchy` actually
 fire. The function itself only sets a 200 ms timer; the push and the
 recursion into the children run inside that timer's callback. Timers with
 equal delays fire first-in first-out, so the pending timers form a queue:
 firing the head pushes its rows and appends a timer for each of its
 children that has `testcases`.
 */
module EventLoop {
  import opened Tree
  import opened Hierarchy

  /** A pending timer: the push it will make, before it is made. */
  datatype Timer = Timer(route: Route, rows: seq<Node>, level: nat)

  /** The number of nodes in a tree. */
  function Size(n: Node): (k: nat)
    decreases n
    ensures k >= 1
  {
    1 + match n.testcases
        case Absent => 0
        case Present(kids) => SizeAll(kids)
  }

  function SizeAll(ns: seq<Node>): nat
    decreases ns
  {
    if ns == [] then 0 else Size(ns[0]) + SizeAll(ns[1..])
  }

  /** The number of nodes still to be visited through a queue of timers. */
  function QueueSize(q: seq<Timer>): nat
  {
    if q == [] then 0 else 1 + SizeAll(q[0].rows) + QueueSize(q[1..])
  }

  lemma {:induction false} QueueSizeAppend(a: seq<Timer>, b: seq<Timer>)
    ensures QueueSize(a + b) == QueueSize(a) + QueueSize(b)
  {
    if a == [] {
      assert a + b == b;
    } else {
      assert (a + b)[1..] == a[1..] + b;
      QueueSizeAppend(a[1..], b);
    }
  }

  /** The timers `ns.forEach(x => recursivelyPopulateHierarchy([...route, x[f]], x))`
      sets: one for each node whose `testcases` is present, in order, all
      firing at `level`. */
  function Schedule(route: Route, ns: seq<Node>, f: KeyField, level: nat): (q: seq<Timer>)
    ensures |q| <= |ns|
    ensures forall t :: t in q ==> t.level == level
    ensures QueueSize(q) <= SizeAll(ns)
  {
    if ns == [] then []
    else
      var rest := Schedule(route, ns[1..], f, level);
      match ns[0].testcases
      case Absent => rest
      case Present(kids) =>
        assert QueueSize([Timer(route + [KeyOf(ns[0], f)], kids, level)] + rest)
               == 1 + SizeAll(kids) + QueueSize(rest) by {
          QueueSizeAppend([Timer(route + [KeyOf(ns[0], f)], kids, level)], rest);
        }
        [Timer(route + [KeyOf(ns[0], f)], kids, level)] + rest
  }

  /** There is a timer for each sibling whose `testcases` is present, and
      no other. */
  lemma {:induction false} ScheduleCovers(route: Route, ns: seq<Node>, f: KeyField, level: nat)
    ensures var q := Schedule(route, ns, f, level);
            (forall k :: 0 <= k < |ns| && ns[k].testcases.Present? ==>
               Timer(route + [KeyOf(ns[k], f)], ns[k].testcases.nodes, level) in q) &&
            (forall t :: t in q ==>
               exists k :: 0 <= k < |ns| && ns[k].testcases.Present? && t == Timer(route + [KeyOf(ns[k], f)], ns[k].testcases.nodes, level))
  {
    if ns != [] {
      ScheduleCovers(route, ns[1..], f, level);
      assert forall k :: 1 <= k < |ns| ==> ns[k] == ns[1..][k - 1];
    }
  }

  /** `Schedule` sets exactly one timer per sibling whose `testcases` is
      present, in sibling order: the k-th timer carries the k-th such
      array, under `route` extended by one key. */
  lemma {:induction false} ScheduleRows(route: Route, ns: seq<Node>, f: KeyField, level: nat)
    ensures var q := Schedule(route, ns, f, level);
            |q| == |Payloads(ns)| &&
            forall k :: 0 <= k < |q| ==>
              q[k].rows == Payloads(ns)[k] && |q[k].route| == |route| + 1 && q[k].route[..|route|] == route
  {
    if ns != [] {
      ScheduleRows(route, ns[1..], f, level);
      var rest := Schedule(route, ns[1..], f, level);
      match ns[0].testcases
      case Absent =>
        assert Schedule(route, ns, f, level) == rest;
        assert Payloads(ns) == Payloads(ns[1..]);
      case Present(kids) =>
        var t := Timer(route + [KeyOf(ns[0], f)], kids, level);
        assert Schedule(route, ns, f, level) == [t] + rest;
        assert Payloads(ns) == [kids] + Payloads(ns[1..]);
        assert t.route[..|route|] == route;
    }
  }

  /** Levels never go down along `ps`. */
  ghost predicate LevelSorted(ps: seq<Push>)
  {
    forall i, j :: 0 <= i < j < |ps| ==> ps[i].level <= ps[j].level
  }

  /** The queue is in level order and spans at most two adjacent levels,
      as it does when timers are only ever set one level after the one
      that is firing. */
  ghost predicate Staged(q: seq<Timer>)
  {
    forall i, j :: 0 <= i < j < |q| ==> q[i].level <= q[j].level <= q[i].level + 1
  }

  /** The queue after its head timer has fired. */
  function Next(q: seq<Timer>): seq<Timer>
    requires q != []
  {
    q[1..] + Schedule(q[0].route, q[0].rows, TestCaseName, q[0].level + 1)
  }

  /** Firing the head timer takes one node's worth of work off the queue. */
  lemma NextShrinks(q: seq<Timer>)
    requires q != []
    ensures QueueSize(Next(q)) < QueueSize(q)
  {
    var children := Schedule(q[0].route, q[0].rows, TestCaseName, q[0].level + 1);
    QueueSizeAppend(q[1..], children);
  }

  /** Firing the head timer keeps the queue in level order, and nothing
      left in it comes before the timer that fired. */
  lemma NextStaged(q: seq<Timer>)
    requires q != []
    ensures Staged(q) ==> Staged(Next(q))
    ensures Staged(q) ==> forall t :: t in Next(q) ==> q[0].level <= t.level
  {
  }

  /** Fire the pending timers in order until none is left, listing the
      pushes in the order they are made. */
  function Fire(q: seq<Timer>): (ps: seq<Push>)
    decreases QueueSize(q)
    ensures |ps| >= |q|
    ensures Staged(q) ==> LevelSorted(ps)
    ensures Staged(q) && q != [] ==> forall p :: p in ps ==> q[0].level <= p.level
  {
    if q == [] then []
    else
      NextShrinks(q);
      var own := Push(q[0].route, q[0].rows, |q[0].rows|, q[0].level);
      var rest := Fire(Next(q));
      FireOrdered(q, rest);
      [own] + rest
  }

  /** If what the rest of the queue fires is ordered, so is what the whole
      queue fires. */
  lemma FireOrdered(q: seq<Timer>, rest: seq<Push>)
    requires q != []
    requires Staged(Next(q)) ==> LevelSorted(rest)
    requires Staged(Next(q)) && Next(q) != [] ==> forall p :: p in rest ==> Next(q)[0].level <= p.level
    requires Next(q) == [] ==> rest == []
    ensures var own := Push(q[0].route, q[0].rows, |q[0].rows|, q[0].level);
            Staged(q) ==> LevelSorted([own] + rest) && forall p :: p in [own] + rest ==> q[0].level <= p.level
  {
    if Staged(q) {
      NextStaged(q);
      assert Next(q) != [] ==> Next(q)[0] in Next(q);
      PrependSorted(Push(q[0].route, q[0].rows, |q[0].rows|, q[0].level), rest);
    }
  }

  /** A push in front of a level-sorted list of pushes none of which comes
      at an earlier level. */
  lemma PrependSorted(own: Push, rest: seq<Push>)
    requires LevelSorted(rest)
    requires forall p :: p in rest ==> own.level <= p.level
    ensures LevelSorted([own] + rest)
    ensures forall p :: p in [own] + rest ==> own.level <= p.level
  {
    forall i, j | 0 <= i < j < |[own] + rest|
      ensures ([own] + rest)[i].level <= ([own] + rest)[j].level
    {
      assert ([own] + rest)[j] == rest[j - 1];
      if i > 0 {
        assert ([own] + rest)[i] == rest[i - 1];
      } else {
        assert rest[j - 1] in rest;
      }
    }
  }

  /** The pushes one timer leads to: its own, then its descendants' in the
      pre-order of the recursion. */
  function Subtree(t: Timer): seq<Push>
  {
    [Push(t.route, t.rows, |t.rows|, t.level)] + PopulateEach(t.route, t.rows, TestCaseName, t.level + 1)
  }

  /** All pushes a queue of timers leads to, timer by timer. */
  function Pending(q: seq<Timer>): seq<Push>
  {
    if q == [] then [] else Subtree(q[0]) + Pending(q[1..])
  }

  lemma {:induction false} PendingAppend(a: seq<Timer>, b: seq<Timer>)
    ensures Pending(a + b) == Pending(a) + Pending(b)
  {
    if a == [] {
      assert a + b == b;
    } else {
      assert (a + b)[0] == a[0];
      assert (a + b)[1..] == a[1..] + b;
      PendingAppend(a[1..], b);
      calc {
        Pending(a + b);
        Subtree(a[0]) + Pending(a[1..] + b);
        Subtree(a[0]) + (Pending(a[1..]) + Pending(b));
        (Subtree(a[0]) + Pending(a[1..])) + Pending(b);
        Pending(a) + Pending(b);
      }
    }
  }

  /** The timers set for a list of siblings lead to exactly the pushes the
      recursion lists for them. */
  lemma {:induction false} SchedulePending(route: Route, ns: seq<Node>, f: KeyField, level: nat)
    ensures Pending(Schedule(route, ns, f, level)) == PopulateEach(route, ns, f, level)
  {
    if ns != [] {
      var key := route + [KeyOf(ns[0], f)];
      var rest := Schedule(route, ns[1..], f, level);
      SchedulePending(route, ns[1..], f, level);
      match ns[0].testcases
      case Absent =>
        assert Schedule(route, ns, f, level) == rest;
        assert Populate(key, ns[0], level) == [];
      case Present(kids) =>
        var t := Timer(key, kids, level);
        assert Schedule(route, ns, f, level) == [t] + rest;
        PendingCons(t, rest);
        SubtreeOfNode(key, ns[0], level);
    }
  }

  lemma PendingCons(t: Timer, q: seq<Timer>)
    ensures Pending([t] + q) == Subtree(t) + Pending(q)
  {
  }

  /** A timer set for a node with `testcases` leads to the pushes the
      recursion lists for that node. */
  lemma SubtreeOfNode(route: Route, n: Node, level: nat)
    requires n.testcases.Present?
    ensures Subtree(Timer(route, n.testcases.nodes, level)) == Populate(route, n, level)
  {
  }

  lemma FireStep(q: seq<Timer>)
    requires q != []
    ensures Fire(q) == [Push(q[0].route, q[0].rows, |q[0].rows|, q[0].level)] + Fire(Next(q))
  {
  }

  /** Moving a block to the other side of another leaves the multiset
      of elements as it was. */
  lemma Reorder<T>(f: seq<T>, x: T, g: seq<T>, a: seq<T>, b: seq<T>)
    requires f == [x] + g && multiset(g) == multiset(a + b)
    ensures multiset(f) == multiset([x] + b + a)
  {
  }

  /** Firing a queue makes the same pushes as the recursion lists, only in
      another order. */
  lemma {:induction false} FireIsPermutation(q: seq<Timer>)
    decreases QueueSize(q)
    ensures multiset(Fire(q)) == multiset(Pending(q))
  {
    if q != [] {
      var t := q[0];
      var own := Push(t.route, t.rows, |t.rows|, t.level);
      var children := Schedule(t.route, t.rows, TestCaseName, t.level + 1);
      var next := Next(q);
      NextShrinks(q);
      FireIsPermutation(next);
      PendingAppend(q[1..], children);
      SchedulePending(t.route, t.rows, TestCaseName, t.level + 1);
      var below := PopulateEach(t.route, t.rows, TestCaseName, t.level + 1);
      FireStep(q);
      assert Subtree(t) == [own] + below;
      assert Pending(q) == [own] + below + Pending(q[1..]);
      Reorder(Fire(q), own, Fire(next), Pending(q[1..]), below);
    }
  }
}

=== FILE: hierarchy.dfy ===
/**
 `recursivelyPopulateHierarchy`: for every node whose `testcases` is present,
 one route-scoped push of exactly its direct children, made from a timer
 callback one level deeper than the callback that scheduled it; then the
 same for each child, with the route extended by the child's
 `test_case_name`.

 Timers are modelled by their nesting level only: a push made from a
 callback that runs after `L` nested 200 ms timers has `level == L`. The
 pushes are listed in the pre-order of the recursion: a node, then all of
 its descendants, then its next sibling. The timers fire in another order,
 level by level; `EventLoop` models that order.
 */
module Hierarchy {
  import opened Tree

  /** Where in the tree a batch of rows belongs: the keys of its ancestors,
      root first. */
  type Route = seq<Key>

  /** One `applyServerSideRowData({route, successParams: {rowData, rowCount}})`. */
  datatype Push = Push(route: Route, rows: seq<Node>, rowCount: nat, level: nat)

  /** Which property names a node in its route: `test_suite` for the rows
      of the top level, `test_case_name` below them. */
  datatype KeyField = TestSuite | TestCaseName

  function KeyOf(n: Node, f: KeyField): Key
  {
    match f
    case TestSuite => n.testSuite
    case TestCaseName => n.testCaseName
  }

  /** Every push lies below `route`, one level per route entry beyond it
      counted from `level`, and reports the length of its rows. */
  ghost predicate Below(route: Route, level: int, ps: seq<Push>)
  {
    forall p :: p in ps ==>
      && |route| <= |p.route|
      && p.route[..|route|] == route
      && p.level == level + |p.route| - |route|
      && p.rowCount == |p.rows|
  }

  /** `recursivelyPopulateHierarchy(route, n)` whose timer fires at `level`. */
  function Populate(route: Route, n: Node, level: nat): (ps: seq<Push>)
    decreases n
    ensures Below(route, level, ps)
    ensures ps == [] <==> n.testcases.Absent?
    ensures n.testcases.Present? ==> ps[0].route == route && ps[0].rows == n.testcases.nodes
  {
    match n.testcases
    case Absent => []
    case Present(kids) =>
      [Push(route, kids, |kids|, level)] + PopulateEach(route, kids, TestCaseName, level + 1)
  }

  /** `ns.forEach(x => recursivelyPopulateHierarchy([...route, x[f]], x))`,
      run from a callback one level before `level`. */
  function PopulateEach(route: Route, ns: seq<Node>, f: KeyField, level: nat): (ps: seq<Push>)
    decreases ns
    ensures Below(route, level - 1, ps)
    ensures forall p :: p in ps ==>
      && |route| < |p.route|
      && exists k :: 0 <= k < |ns| && p.route[|route|] == KeyOf(ns[k], f)
  {
    if ns == [] then []
    else
      Populate(route + [KeyOf(ns[0], f)], ns[0], level)
      + PopulateEach(route, ns[1..], f, level)
  }

  /** The rows carried by each push, in order. */
  function Rows(ps: seq<Push>): (r: seq<seq<Node>>)
    ensures |r| == |ps|
    ensures forall i :: 0 <= i < |ps| ==> r[i] == ps[i].rows
  {
    seq(|ps|, i requires 0 <= i < |ps| => ps[i].rows)
  }

  lemma RowsAppend(a: seq<Push>, b: seq<Push>)
    ensures Rows(a + b) == Rows(a) + Rows(b)
  {
  }

  /** Exactly one push per node whose `testcases` is present, carrying
      exactly that node's children, in depth-first pre-order: the pushes'
      rows are the child arrays of the tree's nodes, listed in pre-order. */
  lemma {:induction false} PopulatePayloads(route: Route, n: Node, level: nat)
    decreases n, 1
    ensures Rows(Populate(route, n, level)) == Payloads(Preorder(n))
  {
    match n.testcases
    case Absent =>
      assert Payloads(Preorder(n)) == Payloads([n]) + Payloads([]) by {
        assert Preorder(n) == [n];
      }
    case Present(kids) =>
      var own := [Push(route, kids, |kids|, level)];
      var rest := PopulateEach(route, kids, TestCaseName, level + 1);
      RowsAppend(own, rest);
      PopulateEachPayloads(route, kids, TestCaseName, level + 1);
      PayloadsAppend([n], PreorderAll(kids));
      assert Preorder(n) == [n] + PreorderAll(kids);
      assert Payloads([n]) == [kids] by {
        assert [n][1..] == [];
      }
  }

  lemma {:induction false} PopulateEachPayloads(route: Route, ns: seq<Node>, f: KeyField, level: nat)
    decreases ns, 0
    ensures Rows(PopulateEach(route, ns, f, level)) == Payloads(PreorderAll(ns))
  {
    if ns != [] {
      var head := Populate(route + [KeyOf(ns[0], f)], ns[0], level);
      var tail := PopulateEach(route, ns[1..], f, level);
      RowsAppend(head, tail);
      PopulatePayloads(route + [KeyOf(ns[0], f)], ns[0], level);
      PopulateEachPayloads(route, ns[1..], f, level);
      PayloadsAppend(Preorder(ns[0]), PreorderAll(ns[1..]));
    }
  }

  /** The push that a push's callback schedules for child `c`: route
      extended by the child's `test_case_name`, one timer level later. */
  function ChildPush(parent: Push, c: Node): (q: Push)
    requires c.testcases.Present?
    ensures |q.route| == |parent.route| + 1 && q.route[..|parent.route|] == parent.route
    ensures q.level == parent.level + 1 && q.rows == c.testcases.nodes && q.rowCount == |q.rows|
  {
    Push(parent.route + [c.testCaseName], c.testcases.nodes, |c.testcases.nodes|, parent.level + 1)
  }

  /** Every child with `testcases` of every pushed batch gets its own push
      later in the schedule, at the next timer level. */
  ghost predicate ChildrenFollow(ps: seq<Push>)
  {
    forall i, c :: 0 <= i < |ps| && c in ps[i].rows && c.testcases.Present? ==>
      exists j :: i < j < |ps| && ps[j] == ChildPush(ps[i], c)
  }

  lemma ChildrenFollowAppend(a: seq<Push>, b: seq<Push>)
    requires ChildrenFollow(a) && ChildrenFollow(b)
    ensures ChildrenFollow(a + b)
  {
    forall i, c | 0 <= i < |a + b| && c in (a + b)[i].rows && c.testcases.Present?
      ensures exists j :: i < j < |a + b| && (a + b)[j] == ChildPush((a + b)[i], c)
    {
      if i < |a| {
        FollowLeft(a, b, i, c);
      } else {
        FollowRight(a, b, i - |a|, c);
      }
    }
  }

  lemma FollowLeft(a: seq<Push>, b: seq<Push>, i: nat, c: Node)
    requires ChildrenFollow(a) && i < |a| && c in a[i].rows && c.testcases.Present?
    ensures exists j :: i < j < |a + b| && (a + b)[j] == ChildPush((a + b)[i], c)
  {
    var j :| i < j < |a| && a[j] == ChildPush(a[i], c);
    assert (a + b)[i] == a[i] && (a + b)[j] == a[j];
  }

  lemma FollowRight(a: seq<Push>, b: seq<Push>, i: nat, c: Node)
    requires ChildrenFollow(b) && i < |b| && c in b[i].rows && c.testcases.Present?
    ensures exists j :: |a| + i < j < |a + b| && (a + b)[j] == ChildPush((a + b)[|a| + i], c)
  {
    var j :| i < j < |b| && b[j] == ChildPush(b[i], c);
    assert (a + b)[|a| + i] == b[i] && (a + b)[|a| + j] == b[j];
  }

  /** In the pushes for `ns`, each node's own push (if it has one) is
      somewhere in the list. */
  lemma {:induction false} OwnPushScheduled(route: Route, ns: seq<Node>, f: KeyField, level: nat, k: nat)
    requires k < |ns| && ns[k].testcases.Present?
    decreases ns
    ensures var ps := PopulateEach(route, ns, f, level);
            exists j :: 0 <= j < |ps| && ps[j] == Push(route + [KeyOf(ns[k], f)], ns[k].testcases.nodes, |ns[k].testcases.nodes|, level)
  {
    var head := Populate(route + [KeyOf(ns[0], f)], ns[0], level);
    var tail := PopulateEach(route, ns[1..], f, level);
    var ps := head + tail;
    assert PopulateEach(route, ns, f, level) == ps;
    if k == 0 {
      assert head[0] in head;
      assert ps[0] == head[0];
    } else {
      OwnPushScheduled(route, ns[1..], f, level, k - 1);
      var j :| 0 <= j < |tail| && tail[j] == Push(route + [KeyOf(ns[1..][k - 1], f)], ns[1..][k - 1].testcases.nodes, |ns[k].testcases.nodes|, level);
      assert ps[|head| + j] == tail[j];
    }
  }

  /** A push followed by a list in which each of its children with
      `testcases` is pushed: the whole list has children following. */
  lemma PrependFollow(own: Push, rest: seq<Push>)
    requires ChildrenFollow(rest)
    requires forall c :: c in own.rows && c.testcases.Present? ==>
      exists j :: 0 <= j < |rest| && rest[j] == ChildPush(own, c)
    ensures ChildrenFollow([own] + rest)
  {
    forall i, c | 0 <= i < |[own] + rest| && c in ([own] + rest)[i].rows && c.testcases.Present?
      ensures exists j :: i < j < |[own] + rest| && ([own] + rest)[j] == ChildPush(([own] + rest)[i], c)
    {
      if i == 0 {
        FollowHead(own, rest, c);
      } else {
        FollowRight([own], rest, i - 1, c);
      }
    }
  }

  lemma FollowHead(own: Push, rest: seq<Push>, c: Node)
    requires c.testcases.Present?
    requires exists j :: 0 <= j < |rest| && rest[j] == ChildPush(own, c)
    ensures exists j :: 0 < j < |[own] + rest| && ([own] + rest)[j] == ChildPush(([own] + rest)[0], c)
  {
    var j :| 0 <= j < |rest| && rest[j] == ChildPush(own, c);
    assert ([own] + rest)[0] == own && ([own] + rest)[j + 1] == rest[j];
  }

  /** Children are pushed after their parent, one timer level later, with
      the route extended by their `test_case_name`. */
  lemma {:induction false} PopulateChildrenFollow(route: Route, n: Node, level: nat)
    decreases n, 1
    ensures ChildrenFollow(Populate(route, n, level))
  {
    match n.testcases
    case Absent =>
    case Present(kids) =>
      var own := Push(route, kids, |kids|, level);
      var rest := PopulateEach(route, kids, TestCaseName, level + 1);
      PopulateEachChildrenFollow(route, kids, TestCaseName, level + 1);
      forall c | c in own.rows && c.testcases.Present?
        ensures exists j :: 0 <= j < |rest| && rest[j] == ChildPush(own, c)
      {
        var k :| 0 <= k < |kids| && kids[k] == c;
        OwnPushScheduled(route, kids, TestCaseName, level + 1, k);
      }
      PrependFollow(own, rest);
  }

  lemma {:induction false} PopulateEachChildrenFollow(route: Route, ns: seq<Node>, f: KeyField, level: nat)
    decreases ns, 0
    ensures ChildrenFollow(PopulateEach(route, ns, f, level))
  {
    if ns != [] {
      PopulateChildrenFollow(route + [KeyOf(ns[0], f)], ns[0], level);
      PopulateEachChildrenFollow(route, ns[1..], f, level);
      ChildrenFollowAppend(Populate(route + [KeyOf(ns[0], f)], ns[0], level), PopulateEach(route, ns[1..], f, level));
    }
  }
}

=== FILE: slice.dfy ===
/**
 JavaScript's `Array.prototype.slice(start, end)` (ECMA-262) for integer or
 `undefined` arguments: a negative index counts from the end of the array,
 both indices are clamped to `[0, length]`, an `undefined` start is 0 and an
 `undefined` end is the length.
 */
module JsArray {
  import opened Wrappers

  /** The relative-index step of `slice`: where an argument points once it
      is resolved against an array of length `len`. */
  function RelativeIndex(i: int, len: nat): (k: nat)
    ensures k <= len
    ensures 0 <= i ==> k == (if i < len then i else len)
    ensures i < 0 ==> k == (if len + i < 0 then 0 else len + i)
  {
    if i < 0 then (if len + i < 0 then 0 else len + i)
    else if i < len then i else len
  }

  /** Where `slice` starts: an `undefined` start reads as 0. */
  function StartIndex(start: Option<int>, len: nat): (k: nat)
    ensures k <= len
    ensures start.None? ==> k == 0
  {
    match start
    case None => 0
    case Some(i) => RelativeIndex(i, len)
  }

  /** Where `slice` stops: an `undefined` end is the length. */
  function EndIndex(end: Option<int>, len: nat): (k: nat)
    ensures k <= len
    ensures end.None? ==> k == len
  {
    match end
    case None => len
    case Some(i) => RelativeIndex(i, len)
  }

  /** `s.slice(start, end)`: the elements from the resolved start up to,
      not including, the resolved end; empty when they cross. */
  function Slice<T>(s: seq<T>, start: Option<int>, end: Option<int>): (r: seq<T>)
    ensures |r| <= |s|
    ensures var from, to := StartIndex(start, |s|), EndIndex(end, |s|);
            && |r| == (if from < to then to - from else 0)
            && forall k :: 0 <= k < |r| ==> r[k] == s[from + k]
    // with both bounds left out, the whole array
    ensures start.None? && end.None? ==> r == s
    // a window of non-negative row numbers
    ensures start.Some? && end.Some? && 0 <= start.value && 0 <= end.value ==>
            && (start.value <= end.value ==> |r| <= end.value - start.value)
            && (r == [] <==> |s| <= start.value || end.value <= start.value)
  {
    var from, to := StartIndex(start, |s|), EndIndex(end, |s|);
    if from < to then s[from..to] else []
  }

  /** The step-by-step algorithm of ECMA-262: resolve both indices, then
      copy element `k` for every `k` from the start up to the end. */
  method SliceSteps<T>(s: seq<T>, start: Option<int>, end: Option<int>) returns (a: seq<T>)
    ensures a == Slice(s, start, end)
  {
    var k := StartIndex(start, |s|);
    var final := EndIndex(end, |s|);
    ghost var from := k;
    a := [];
    while k < final
      invariant from <= k <= |s|
      invariant from < final ==> k <= final
      invariant final <= from ==> k == from
      invariant |a| == k - from
      invariant forall i :: 0 <= i < |a| ==> a[i] == s[from + i]
    {
      a := a + [s[k]];
      k := k + 1;
    }
    var r := Slice(s, start, end);
    assert |a| == |r|;
    forall i | 0 <= i < |a| ensures a[i] == r[i] {}
  }

  /** For a window of non-negative row numbers, the slice is the window
      clamped to the array: `s[min(start, |s|) .. max(that, min(end, |s|))]`. */
  lemma WindowClamp<T>(s: seq<T>, start: int, end: int)
    requires 0 <= start && 0 <= end
    ensures var lo := if start < |s| then start else |s|;
            var hi := if end < |s| then end else |s|;
            Slice(s, Some(start), Some(end)) == s[lo .. if lo < hi then hi else lo]
  {
  }
}

=== FILE: tree.dfy ===
/**
 The records the datasource serves: test suites whose `testcases` array holds
 test cases, which may themselves hold further `testcases`.
 */
module Tree {
  import opened Wrappers

  /** A string-valued property of a row that may be `undefined` (`None`). */
  type Key = Option<string>

  /** The `testcases` property. `Absent` stands for every falsy value
      (`undefined`, `null`); an array, even an empty one, is truthy and is
      `Present`. */
  datatype Testcases = Absent | Present(nodes: seq<Node>)

  /** One row of the dataset. Display-only properties (such as `status`)
      are not inspected by the datasource and are not modelled. */
  datatype Node = Node(testSuite: Key, testCaseName: Key, testcases: Testcases)

  /** All nodes of the tree rooted at `n`, depth-first, parents first. */
  function Preorder(n: Node): (r: seq<Node>)
    decreases n
    ensures |r| >= 1 && r[0] == n
  {
    [n] + match n.testcases
          case Absent => []
          case Present(kids) => PreorderAll(kids)
  }

  /** The pre-orders of a sequence of trees, one after the other. */
  function PreorderAll(ns: seq<Node>): seq<Node>
    decreases ns
  {
    if ns == [] then [] else Preorder(ns[0]) + PreorderAll(ns[1..])
  }

  /** The child arrays of those nodes of `ns` whose `testcases` is present,
      in the order the nodes appear. */
  function Payloads(ns: seq<Node>): (r: seq<seq<Node>>)
    ensures |r| <= |ns|
  {
    if ns == [] then []
    else
      (match ns[0].testcases
       case Absent => []
       case Present(kids) => [kids])
      + Payloads(ns[1..])
  }

  lemma {:induction false} PayloadsAppend(a: seq<Node>, b: seq<Node>)
    ensures Payloads(a + b) == Payloads(a) + Payloads(b)
  {
    if a != [] {
      assert (a + b)[1..] == a[1..] + b;
      PayloadsAppend(a[1..], b);
    } else {
      assert a + b == b;
    }
  }
}

=== FILE: wrappers.dfy ===
/** Optional values, used for JavaScript properties that may be `undefined`. */
module Wrappers {

  datatype Option<+T> = None | Some(value: T)
}
